=== FILE: README.md ===
# Approval gate and review queue of agent-ext-api

agent-ext-api is a local HTTP proxy between agents and six SaaS APIs
(Jira, Bitbucket, Slack, Gmail, Google Drive, Google Calendar). On the
Slack, Google Drive and Google Calendar routes, a gate decides what happens
to a mutating upstream call, in this order:

1. A DELETE is blocked with a synthetic 200 when the global dry-run flag is on.
2. Otherwise the call is recorded in a review queue and answered with 202,
   when the per-service policy lists its method.
3. Otherwise the call proceeds.

The Jira, Bitbucket and Gmail routes apply only step 1, on their delete and
passthrough routes, and never queue (see "Left out").

A human then lists, inspects, approves, rejects or deletes queued items.
Each approval of a pending item replays its stored method, path, body and
parameters upstream once and records the answer. A transport fault leaves
the item pending, so a later approval replays it again.

The Dafny model has these modules:

- `Text`: the string operations the policy parser needs. These are
  whitespace strip, ASCII upper-case, and split and join on a separator,
  with their round-trip and commutation lemmas.
- `Policy`: parsing a comma-separated method list, the six-service lookup
  table, `RequiresApproval` and the settings.
- `Http`: JSON values, the upstream request and result, transport faults,
  and the gate's synthetic responses.
- `QueueItems`: the queue row, the table (a map from id to row) and its
  well-formedness invariant `Valid`.
- `ReviewQueue`: enqueue, list, get, reject, delete and approve on the table.
- `DryRun`: the dry-run guard.
- `Gate`: the gate's decision, the named-route gate and the passthrough gate.
- `ReviewApi`: the review endpoints with their status codes. A transport
  fault during an approval becomes 502 (connection failure), 504 (timeout)
  or 500 (any other transport error, which has no handler of its own).
- `Lifecycle`: arbitrary sequences of submissions and review actions. These
  keep the table valid, only move an item's status forward, and freeze
  decided items.

Several things the program reads from its environment are inputs to the
model instead:

- the clock;
- the id generator (a random UUID);
- the caller's address;
- the decoder of request bodies;
- the upstream's answer to a replayed call.

## Model

| member | source | states |
|---|---|---|
| Text.Strip | src/extapi/settings.py:8 | The result has no leading or trailing whitespace (Python's full `isspace` set) and is a contiguous slice of the input with only whitespace cut off |
| Text.StripIdempotent | src/extapi/settings.py:8 | Stripping twice is stripping once |
| Text.Upper | src/extapi/settings.py:8 | Same length; every character is upper-cased position by position |
| Text.UpperIdempotent | src/extapi/settings.py:8 | Upper-casing twice is upper-casing once |
| Text.UpperStripCommute | src/extapi/settings.py:8 | Stripping and upper-casing commute, so `m.strip().upper()` names the same method whatever the case of the padding |
| Text.Split | src/extapi/settings.py:8 | `str.split(",")`: at least one part, and no part contains the separator |
| Text.JoinSplit | src/extapi/settings.py:8 | Joining the parts of a split gives back the input |
| Text.SplitJoin | src/extapi/settings.py:8 | Splitting a join of separator-free segments gives back the segments |
| Text.UpperSplitCommute | src/extapi/settings.py:8 | Upper-casing the list before splitting gives the upper-cased parts |
| Policy.NormalizeIsToken | src/extapi/settings.py:8 | A non-blank, comma-free segment normalizes to a method token: non-empty, stripped, upper case, comma-free |
| Policy.ParseMethods | src/extapi/settings.py:5-8 | An empty setting gives the empty set; every parsed entry is a method token |
| Policy.ParseJoin | src/extapi/settings.py:5-8 | Parsing a comma-joined list gives exactly the methods its non-blank segments name, normalized |
| Policy.ParseCaseInsensitive | src/extapi/settings.py:8 | Upper-casing the whole setting does not change the parsed set |
| Policy.ParseDropsBlankSegments | src/extapi/settings.py:8 | `"post,,put"` parses to exactly `{"POST", "PUT"}` |
| Policy.ParseIgnoresCaseAndPadding | src/extapi/settings.py:8 | `"post"` and `" POST "` both parse to exactly `{"POST"}` |
| Policy.ServiceNamed | src/extapi/settings.py:57 | A name resolves to a service exactly when it is one of the six names, and that service carries the name |
| Policy.BuildApprovalGates | src/extapi/settings.py:53-58 | All six services are in the table, each mapped to the parse of its own setting |
| Policy.Load | src/extapi/settings.py:52-58 | Loading keeps the dry-run flag and the raw lists, and leaves a table with every service mapped to the parse of its own list |
| Policy.RequiresApproval | src/extapi/settings.py:60-61 | Approval is only ever required for one of the six service names, and, with the table loaded, only for a method token, so a lower-case method is never matched |
| Policy.RequiresApprovalIff | src/extapi/settings.py:60-61 | A known service requires approval for a method exactly when its own parsed setting contains it |
| Policy.DefaultRequiresNothing | src/extapi/settings.py:41-46 | With the shipped empty settings, nothing requires approval |
| QueueItems.PutKeepsValid | src/extapi/review_queue.py:16-30 | Filing a consistent row under its own id keeps the table consistent |
| ReviewQueue.NewItem | src/extapi/review_queue.py:56-76 | A new row is pending with no decision time, status or text, filed under the given id at the given instant, holding the service, the upper-cased method, the path, body, params, caller and endpoint as captured |
| ReviewQueue.MaybeEnqueue | src/extapi/review_queue.py:42-97 | Answers nothing and leaves the table alone exactly when approval is not required. Otherwise it files one pending row under the fresh id, holding the upper-cased method and the captured path, body, params, caller and endpoint, and answers 202 with queued, review id, "<METHOD> requires approval", service and path |
| ReviewQueue.GetItem | src/extapi/review_queue.py:127-130 | The row is found exactly when the id is in the table |
| ReviewQueue.InsertNewestFirst | src/extapi/review_queue.py:121 | Inserting into a newest-first list keeps it newest-first and adds exactly the one item |
| ReviewQueue.ListItems | src/extapi/review_queue.py:108-124 | Newest first, no duplicates, only rows of the table, and a row is listed exactly when it passes every non-empty filter |
| ReviewQueue.RejectItem | src/extapi/review_queue.py:133-140 | A pending row becomes rejected with the decision time. A decided or missing row leaves the table unchanged. The answer is the row as it stands afterwards, and no other row changes |
| ReviewQueue.DeleteItem | src/extapi/review_queue.py:143-146 | The answer is true exactly when a row existed; afterwards it is gone and no other row changes |
| ReviewQueue.ApproveItem | src/extapi/review_queue.py:153-194 | A missing or decided row is answered as it is, with no upstream call. A pending row is replayed once from its stored method, path, body and params. A transport fault escapes and records nothing. A response marks the row approved with the decision time, upstream status and text. No other row changes |
| DryRun.MaybeBlockDelete | src/extapi/dry_run.py:8-32 | No response exactly when the flag is off; otherwise a 200 with dry_run, the fixed message, the service and the path |
| DryRun.BlockIgnoresApproval | src/extapi/dry_run.py:13-15 | The outcome depends on the dry-run flag alone |
| Gate.DryRunResponsesAgree | src/extapi/gate.py:19-28 | The gate's dry-run response equals the dry-run guard's |
| Gate.CheckGates | src/extapi/gate.py:31-49 | A DELETE under the dry-run flag is blocked with the table unchanged. Otherwise the call is queued exactly when approval is required and proceeds exactly when it is not. A synthetic response is given exactly when the call does not proceed. Queuing adds exactly the new row |
| Gate.BodyOf | src/extapi/gate.py:72-75 | An empty body is no body; JSON `null` is no body; an undecodable body is an error |
| Gate.ParamsOf | src/extapi/gate.py:77 | An empty query is no params; otherwise the query itself |
| Gate.GateNamed | src/extapi/gate.py:66-85 | An undecodable body fails before any decision. Otherwise the gate decides on the upper-cased declared method, decoded body and params. The handler runs exactly when the call proceeds, and its answer is returned unchanged |
| Gate.GatePassthrough | src/extapi/gate.py:106-120 | A payload method other than GET, POST, PUT, DELETE or PATCH (matched exactly, as src/extapi/models/passthrough.py:6 declares it) is refused with 422 before the gate, leaving the table unchanged. A GET goes to the handler with the table unchanged. Any other method is decided as given, with body and params as sent, and the handler runs exactly when the call proceeds |
| Gate.DryRunTakesPrecedence | tests/test_review_queue.py:297-312 | A passthrough DELETE under the flag is blocked with the dry-run response even when approval is also required, and nothing is queued |
| Gate.NamedGateQueuesGet | src/extapi/gate.py:79-83 | A named route declared with GET is queued when the policy lists GET, while a passthrough GET never is |
| Gate.GuardDeleteOnly | src/extapi/routers/jira.py:116-127 | A route guarded only by the dry-run check refuses a method outside the five of src/extapi/models/passthrough.py:6 with 422, answers the dry-run response exactly for a DELETE under the flag, and runs the handler exactly in every other case |
| Gate.LowerCaseMethodRefused | src/extapi/models/passthrough.py:6 | A passthrough payload naming "delete" is refused with 422 by both passthrough guards, so it neither bypasses the dry-run check nor reaches the handler |
| Gate.GuardAgreesWithoutApproval | src/extapi/routers/bitbucket.py:93-104 | Where no approval is required, the full passthrough gate answers as the dry-run-only guard does and leaves the queue untouched |
| ReviewApi.StatusFilterOkIff | src/extapi/routers/review.py:12 | The accepted status filters are exactly the three status names |
| ReviewApi.ListQueue | src/extapi/routers/review.py:9-17 | A status filter naming no status gives 422. Otherwise the answer is the filtered newest-first listing with a count equal to its length |
| ReviewApi.GetQueueItem | src/extapi/routers/review.py:20-26 | 404 exactly when the id is absent, otherwise the row |
| ReviewApi.FaultReply | src/extapi/main.py:52-65 | A connection failure becomes 502 and a timeout 504; any other transport error has no handler and becomes 500 |
| ReviewApi.ApproveQueueItem | src/extapi/routers/review.py:29-41 | 404 for a missing row and 409 with its status for a decided row, with no upstream call. For a pending row, exactly the stored call is made: a fault gives 502, 504 or 500 and the row stays pending; a response gives the row with only its status, decision time, upstream status and text changed. The table changes exactly when the answer is 200 |
| ReviewApi.RejectQueueItem | src/extapi/routers/review.py:44-56 | 404 for a missing row, 409 with its status for a decided row, otherwise the rejected row. The table changes exactly when the answer is 200 |
| ReviewApi.DeleteQueueItem | src/extapi/routers/review.py:59-65 | `{deleted: true}` exactly when the row existed, 404 exactly when not; afterwards the row is gone |
| ReviewApi.ApproveTwiceConflicts | tests/test_review_queue.py:221-231 | Approving an approved row again is a 409 with status approved, no upstream call and no change |
| ReviewApi.RejectAfterApproveConflicts | src/extapi/routers/review.py:50-54 | Rejecting an approved row is a 409 with no change |
| ReviewApi.ApproveAfterRejectConflicts | src/extapi/routers/review.py:35-39 | Approving a rejected row is a 409 with no upstream call and no change |
| ReviewApi.FaultThenRetry | src/extapi/review_queue.py:163-183 | A transport fault answers 502, 504 or 500 and leaves the table as it was, so a later approval makes the same call again |
| ReviewApi.DeleteThenGetNotFound | tests/test_review_queue.py:272-284 | After a delete, fetching and deleting the id both give 404 |
| ReviewApi.EnqueueThenGet | tests/test_review_queue.py:177-190 | A queued mutation reads back pending with its service, upper-cased method, path, body and params |
| ReviewApi.EnqueueThenApproveReplays | src/extapi/review_queue.py:159-168 | Approving a queued mutation sends exactly the intercepted call: service, upper-cased method, path, body, params |
| Lifecycle.Step | src/extapi/review_queue.py:133-194 | One submission or review action keeps the table valid, creates rows only by submission, moves a status only out of pending, leaves a decided row as it is, and never changes the call a surviving row captured |
| Lifecycle.RunKeepsValid | src/extapi/review_queue.py:16-30 | Every sequence of actions keeps the table valid |
| Lifecycle.RunAdvances | src/extapi/review_queue.py:136 | Across any sequence of actions that does not reuse its id, a row's status only leaves pending, never returns to it |
| Lifecycle.RunKeepsDecided | src/extapi/review_queue.py:156-157 | Across any sequence of actions that does not reuse its id, a decided row stays exactly as decided until it is deleted |
| Lifecycle.RunGone | src/extapi/review_queue.py:143-146 | A deleted id stays absent unless it is reused |
| Lifecycle.RunKeepsCall | src/extapi/review_queue.py:177-181 | Across any sequence of actions that does not reuse its id, a surviving row keeps its id, instant, service, method, path, body, params, caller and endpoint |
| Lifecycle.RunThenApproveReplays | src/extapi/review_queue.py:159-168 | After any such sequence, approving a row that is still pending replays exactly the call it was queued with |

## Left out

- Storage: the SQLite table, its connection and the JSON encoding of body
  and params in columns are not modelled. The table is a map from id to
  row, and body and params are kept as values, so storing and reading
  them back is the identity.
- JSON numbers are integers only. Floating point is not modelled.
- The JSON decoder of request bodies is a parameter (`Gate.BodyOf`). An
  undecodable body is a distinct outcome. In the program it is an
  exception that the framework turns into an error response, which is not
  modelled.
- Text.Upper: upper-cases ASCII letters only. Python's `str.upper` also
  maps non-ASCII letters and can lengthen a string (for example "ß"
  becomes "SS"). Real method names are ASCII.
- ReviewQueue.MaybeEnqueue: requires the fresh id to be absent from the
  table. The program draws a random UUID and does not check it. A collision
  is not modelled.
- Lifecycle.Step: a submission whose id is already taken leaves the table
  alone, for the same reason.
- Lifecycle.RunAdvances, Lifecycle.RunKeepsDecided, Lifecycle.RunGone,
  Lifecycle.RunKeepsCall and Lifecycle.RunThenApproveReplays
  hold only while the id is not reused by a later submission. The program
  relies on UUIDs never repeating.
- Policy.RequiresApprovalIff: holds for settings whose table is the parse
  of their raw lists (`Policy.Loaded`). Every settings value the program
  uses is built that way by its validator, and `Policy.Load` builds it so
  here. Environment-variable loading itself is not modelled.
- Timestamps are integers ordered as the program's UTC ISO-8601 strings
  sort. Ties in `created_at` are ordered arbitrarily, as SQL leaves them.
- Query parameters are one value per name, as `dict(request.query_params)`
  keeps them. Repeated names are not modelled.
- The named gate's path is given already formatted. Filling
  `path_template` from the route's arguments is not modelled.
- Logging (structlog events in the dry-run guard, the enqueue and the
  approval) is not modelled. It does not affect any answer.
- The upstream client is not modelled. It is chosen per service from
  `app.state`, and its answer is an input: a status with text, or a
  transport fault of one of three kinds (connection failure, timeout,
  other). Reading `resp.text` is best-effort in the program, so
  the text is optional.
- Concurrency is not modelled. Every operation is one atomic step on the
  table. In the program, approval reads the row, awaits the upstream call
  and then writes without re-checking the status, and two concurrent
  approvals of one pending row can both replay it.
- The per-service routers, and the clients, are not modelled route by
  route. The Slack, Google Drive and Google Calendar routers wrap their
  named mutating routes in the named-route decorator (`Gate.GateNamed`)
  and their passthrough routes in the passthrough decorator
  (`Gate.GatePassthrough`). The Jira, Bitbucket and Gmail routers use
  neither. Their delete routes and passthrough routes consult only the
  dry-run guard, for DELETE (`Gate.GuardDeleteOnly`), and never queue.
  Their other named mutating routes have no gate at all.

Facts about the program that the model records:

- GET is exempt only on passthrough routes. The named-route decorator
  gates whatever method it declares, including GET
  (`Gate.NamedGateQueuesGet`). No shipped named route declares GET.
- Approval has no compare-and-set. The UPDATE in `approve_item`
  (src/extapi/review_queue.py:177-181) does not re-check the status, as
  described under concurrency above.
- The dry-run response carries the service and the path as well as the
  message.
- The application module (src/extapi/main.py:43-49) mounts the six
  service routers and the health router but not the review router, and it
  does not open the review table. Application bootstrap is not modelled;
  the review endpoints are modelled as their router defines them.

=== FILE: dry_run.dfy ===
/** The dry-run guard that delete routes consult before calling upstream. */
module DryRun {
  import opened Wrappers
  import opened Http
  import opened Policy

  /** With the dry-run flag on, answers a synthetic 200 that echoes the
      service and path instead of letting the delete through; with it off,
      answers nothing. Callers consult it for deletes only. */
  function MaybeBlockDelete(settings: Settings, service: string, path: string): (r: Option<Intercept>)
    ensures r.None? <==> !settings.dryRunDeletes
    ensures r.Some? ==>
      && r.value.DryRunBlocked? && r.value.dryRun
      && r.value.StatusCode() == 200
      && r.value.message == DryRunMessage
      && r.value.service == service && r.value.path == path
  {
    if !settings.dryRunDeletes then None
    else Some(DryRunBlocked(true, DryRunMessage, service, path))
  }

  /** Only the dry-run flag matters: the approval lists play no part. */
  lemma BlockIgnoresApproval(s1: Settings, s2: Settings, service: string, path: string)
    requires s1.dryRunDeletes == s2.dryRunDeletes
    ensures MaybeBlockDelete(s1, service, path) == MaybeBlockDelete(s2, service, path)
  {
  }
}

=== FILE: gate.dfy ===
/** The gate in front of the mutating upstream calls of the decorated
    routes: a delete under the dry-run flag is blocked, else a call the
    policy marks for approval is queued, else the call proceeds to the
    wrapped handler. Routes that consult only the dry-run guard are
    modelled by `GuardDeleteOnly`. */
module Gate {
  import opened Wrappers
  import opened Text
  import opened Http
  import opened Policy
  import opened QueueItems
  import opened ReviewQueue
  import opened DryRun

  /** How the gate disposed of one call. */
  datatype Outcome = BlockedDryRun(service: string, path: string) | Enqueued(id: Id) | Proceed

  /** The outcome, the synthetic response that replaces the upstream call
      (none when the call proceeds), and the queue afterwards. */
  datatype Decision = Decision(outcome: Outcome, response: Option<Intercept>, store: Store)

  /** The gate's own dry-run response. */
  function DryRunResponse(service: string, path: string): Intercept {
    DryRunBlocked(true, DryRunMessage, service, path)
  }

  /** The gate's response to a blocked delete is the one the dry-run guard
      gives for the same service and path. */
  lemma DryRunResponsesAgree(settings: Settings, service: string, path: string)
    requires settings.dryRunDeletes
    ensures MaybeBlockDelete(settings, service, path) == Some(DryRunResponse(service, path))
  {
  }

  /** Decides one call in strict order: dry-run block for a DELETE, then the
      approval queue, then proceed. Blocking never touches the queue; queuing
      adds exactly the one pending item for this call. */
  function CheckGates(
    settings: Settings, store: Store, env: Env,
    service: string, verb: string, upstreamPath: string,
    body: Option<Json>, params: Option<Params>): (d: Decision)
    requires env.id !in store
    ensures verb == "DELETE" && settings.dryRunDeletes ==>
      && d.outcome == BlockedDryRun(service, upstreamPath)
      && d.response == MaybeBlockDelete(settings, service, upstreamPath)
      && d.store == store
    ensures !(verb == "DELETE" && settings.dryRunDeletes) ==>
      && (d.outcome == Enqueued(env.id) <==> RequiresApproval(settings, service, verb))
      && (d.outcome == Proceed <==> !RequiresApproval(settings, service, verb))
    ensures d.outcome.Proceed? <==> d.response.None?
    ensures d.outcome.Proceed? ==> d.store == store
    ensures d.outcome.Enqueued? ==>
      && d.response == Some(Queued(true, env.id, QueuedMessage(verb), service, upstreamPath))
      && d.store == store[env.id := NewItem(env, service, verb, upstreamPath, body, params, "")]
    ensures Valid(store) ==> Valid(d.store)
  {
    if verb == "DELETE" && settings.dryRunDeletes then
      Decision(BlockedDryRun(service, upstreamPath), Some(DryRunResponse(service, upstreamPath)), store)
    else
      var t := MaybeEnqueue(settings, store, env, service, verb, upstreamPath, body, params, "");
      if t.out.Some? then Decision(Enqueued(env.id), t.out, t.store)
      else Decision(Proceed, None, store)
  }

  /** What a gated route answers: the gate's synthetic response, the wrapped
      handler's own answer, a failure to decode the request body, or the 422
      that request validation gives a passthrough payload naming a method it
      does not accept. */
  datatype GateReply<R> = Intercepted(response: Intercept) | Handled(value: R) | MalformedBody | InvalidMethod

  datatype Gated<R> = Gated(reply: GateReply<R>, store: Store)

  /** The request body as the gate passes it on: an empty body is no body,
      and a body that decodes to JSON `null` is no body either. */
  function BodyOf(raw: Bytes, decode: Bytes -> Option<Json>): (r: Result<Option<Json>, Bytes>)
    ensures raw == [] ==> r == Success(None)
    ensures raw != [] && decode(raw).None? ==> r.Failure?
    ensures raw != [] && decode(raw).Some? ==>
      r == Success(if decode(raw).value.Null? then None else Some(decode(raw).value))
  {
    if raw == [] then Success(None)
    else match decode(raw)
      case None => Failure(raw)
      case Some(Null) => Success(None)
      case Some(j) => Success(Some(j))
  }

  /** The query parameters as the gate passes them on: none when empty. */
  function ParamsOf(query: Params): (r: Option<Params>)
    ensures r.None? <==> query == map[]
    ensures r.Some? ==> r.value == query
  {
    if query == map[] then None else Some(query)
  }

  /** A named mutating route declared with `service`, `declaredVerb` and an
      upstream path: the declared method is upper-cased, the body decoded and
      the query read before the gate decides; on proceed the handler runs on
      its own arguments. */
  function GateNamed<A, R>(
    settings: Settings, store: Store, env: Env,
    service: string, declaredVerb: string, upstreamPath: string,
    raw: Bytes, query: Params, decode: Bytes -> Option<Json>,
    handler: A -> R, args: A): (g: Gated<R>)
    requires env.id !in store
    ensures g.reply.MalformedBody? <==> BodyOf(raw, decode).Failure?
    ensures g.reply.MalformedBody? ==> g.store == store
    ensures BodyOf(raw, decode).Success? ==>
      var d := CheckGates(settings, store, env, service, Upper(declaredVerb), upstreamPath,
                          BodyOf(raw, decode).value, ParamsOf(query));
      && (g.reply.Handled? <==> d.outcome.Proceed?)
      && (d.response.Some? ==> g.reply == Intercepted(d.response.value))
      && g.store == d.store
    ensures !g.reply.InvalidMethod?
    ensures g.reply.Handled? ==> g.reply.value == handler(args)
    ensures Valid(store) ==> Valid(g.store)
  {
    match BodyOf(raw, decode)
    case Failure(_) => Gated(MalformedBody, store)
    case Success(body) =>
      var d := CheckGates(settings, store, env, service, Upper(declaredVerb), upstreamPath, body, ParamsOf(query));
      match d.response
      case Some(response) => Gated(Intercepted(response), d.store)
      case None => Gated(Handled(handler(args)), d.store)
  }

  /** The methods a passthrough payload may name, exactly as written: the
      payload is validated against them before any route code runs. */
  const PassthroughMethods: set<string> := {"GET", "POST", "PUT", "DELETE", "PATCH"}

  /** The body of a passthrough call as the caller sent it: a method string,
      path, body and params. */
  datatype PassthroughRequest = PassthroughRequest(verb: string, path: string, body: Option<Json>, params: Option<Params>)

  /** A passthrough route: a method outside the accepted five is refused
      with 422 before the gate; a GET goes straight to the handler; any other
      method is gated exactly as given, with body and params as sent. */
  function GatePassthrough<A, R>(
    settings: Settings, store: Store, env: Env, service: string,
    payload: PassthroughRequest, handler: A -> R, args: A): (g: Gated<R>)
    requires env.id !in store
    ensures g.reply.InvalidMethod? <==> payload.verb !in PassthroughMethods
    ensures g.reply.InvalidMethod? ==> g.store == store
    ensures payload.verb == "GET" ==> g == Gated(Handled(handler(args)), store)
    ensures payload.verb in PassthroughMethods && payload.verb != "GET" ==>
      var d := CheckGates(settings, store, env, service, payload.verb, payload.path, payload.body, payload.params);
      && (g.reply.Handled? <==> d.outcome.Proceed?)
      && (d.response.Some? ==> g.reply == Intercepted(d.response.value))
      && g.store == d.store
    ensures !g.reply.MalformedBody?
    ensures g.reply.Handled? ==> g.reply.value == handler(args)
    ensures Valid(store) ==> Valid(g.store)
  {
    if payload.verb !in PassthroughMethods then Gated(InvalidMethod, store)
    else if payload.verb == "GET" then Gated(Handled(handler(args)), store)
    else
      var d := CheckGates(settings, store, env, service, payload.verb, payload.path, payload.body, payload.params);
      match d.response
      case Some(response) => Gated(Intercepted(response), d.store)
      case None => Gated(Handled(handler(args)), d.store)
  }

  /** Dry-run takes precedence over the queue: a passthrough DELETE under
      the flag is blocked with the dry-run response even when the policy
      also requires approval for it, and nothing is queued. */
  lemma DryRunTakesPrecedence<A, R>(
    settings: Settings, store: Store, env: Env, service: string,
    payload: PassthroughRequest, handler: A -> R, args: A)
    requires env.id !in store
    requires settings.dryRunDeletes && payload.verb == "DELETE"
    requires RequiresApproval(settings, service, "DELETE")
    ensures GatePassthrough(settings, store, env, service, payload, handler, args)
      == Gated(Intercepted(DryRunBlocked(true, DryRunMessage, service, payload.path)), store)
  {
  }

  /** Unlike a passthrough route, a named route declared with GET is not
      exempt: when the policy lists GET for its service, the call is queued. */
  lemma NamedGateQueuesGet<A, R>(
    settings: Settings, store: Store, env: Env,
    service: string, declaredVerb: string, upstreamPath: string,
    raw: Bytes, query: Params, decode: Bytes -> Option<Json>,
    handler: A -> R, args: A)
    requires env.id !in store
    requires Upper(declaredVerb) == "GET" && RequiresApproval(settings, service, "GET")
    requires BodyOf(raw, decode).Success?
    ensures var g := GateNamed(settings, store, env, service, declaredVerb, upstreamPath,
                               raw, query, decode, handler, args);
      && g.reply.Intercepted? && g.reply.response.Queued?
      && env.id in g.store && g.store[env.id].verb == "GET"
    ensures GatePassthrough(settings, store, env, service,
                            PassthroughRequest("GET", upstreamPath, None, None), handler, args)
      == Gated(Handled(handler(args)), store)
  {
  }

  /** A route that consults only the dry-run guard, as the Jira, Bitbucket
      and Gmail routers do on their delete and passthrough routes: a method
      outside the accepted five is refused with 422, a DELETE under the flag
      gets the dry-run response, anything else goes to the handler. Nothing
      is ever queued. A named delete route passes "DELETE". */
  function GuardDeleteOnly<A, R>(
    settings: Settings, service: string, verb: string, path: string,
    handler: A -> R, args: A): (r: GateReply<R>)
    ensures r.InvalidMethod? <==> verb !in PassthroughMethods
    ensures r.Intercepted? <==> verb == "DELETE" && settings.dryRunDeletes
    ensures r.Intercepted? ==> MaybeBlockDelete(settings, service, path) == Some(r.response)
    ensures !r.MalformedBody?
    ensures r.Handled? <==> verb in PassthroughMethods && !(verb == "DELETE" && settings.dryRunDeletes)
    ensures r.Handled? ==> r.value == handler(args)
  {
    if verb !in PassthroughMethods then InvalidMethod
    else if verb == "DELETE" then
      match MaybeBlockDelete(settings, service, path)
      case Some(response) => Intercepted(response)
      case None => Handled(handler(args))
    else Handled(handler(args))
  }

  /** Where the policy requires no approval, the full passthrough gate and
      the dry-run-only guard answer alike and the queue is untouched. */
  lemma GuardAgreesWithoutApproval<A, R>(
    settings: Settings, store: Store, env: Env, service: string,
    payload: PassthroughRequest, handler: A -> R, args: A)
    requires env.id !in store
    requires !RequiresApproval(settings, service, payload.verb)
    ensures var g := GatePassthrough(settings, store, env, service, payload, handler, args);
      && g.reply == GuardDeleteOnly(settings, service, payload.verb, payload.path, handler, args)
      && g.store == store
  {
  }

  /** Method names are matched exactly: a passthrough payload naming
      "delete" is refused with 422 on every passthrough route, so it can
      neither slip past the dry-run guard nor reach the handler, whatever
      the policy says. */
  lemma LowerCaseMethodRefused<A, R>(
    settings: Settings, store: Store, env: Env, service: string,
    path: string, handler: A -> R, args: A)
    requires env.id !in store
    ensures var payload := PassthroughRequest("delete", path, None, None);
      && GatePassthrough(settings, store, env, service, payload, handler, args) == Gated(InvalidMethod, store)
      && GuardDeleteOnly(settings, service, payload.verb, path, handler, args) == InvalidMethod
  {
  }
}

=== FILE: http.dfy ===
/** The values that cross the core's boundary: JSON payloads, the request
    the deferred upstream call makes, what the upstream answers, and the
    synthetic responses a gate returns in place of the real call. */
module Http {
  import opened Wrappers

  /** A JSON value as `json.loads` produces it (numbers as integers). */
  datatype Json =
    | Null
    | Bool(b: bool)
    | Number(n: int)
    | Str(s: string)
    | Array(elems: seq<Json>)
    | Object(members: seq<(string, Json)>)

  /** A raw request body. */
  type Bytes = seq<bv8>

  /** Query parameters: one value per name. */
  type Params = map<string, string>

  /** One upstream call: the target service's client issues `verb` on `path`
      with the JSON body and the query parameters. */
  datatype UpstreamRequest = UpstreamRequest(
    service: string,
    verb: string,
    path: string,
    body: Option<Json>,
    params: Option<Params>)

  /** A transport-level failure of an upstream call: the connection could
      not be made, the call timed out, or some other transport error (a read
      or write error, a protocol error) occurred. */
  datatype Fault = ConnectError | Timeout | OtherTransportError

  /** What an upstream call gives back: a response with its status code and,
      when it can be read, its text; or a transport failure. */
  datatype UpstreamResult =
    | Responded(statusCode: int, text: Option<string>)
    | Failed(fault: Fault)

  const DryRunMessage: string := "DELETE blocked by dry_run_deletes flag"

  /** The synthetic response a gate returns instead of calling upstream. */
  datatype Intercept =
    | DryRunBlocked(dryRun: bool, message: string, service: string, path: string)
    | Queued(queued: bool, reviewId: string, message: string, service: string, path: string)
  {
    /** Both are success-shaped: 200 for a blocked delete, 202 for a queued
        mutation. */
    function StatusCode(): int {
      if DryRunBlocked? then 200 else 202
    }
  }
}

=== FILE: lifecycle.dfy ===
/** The queue over time: any sequence of gated submissions and review
    actions keeps the table well formed, and an item's status only moves
    forward — once approved or rejected, an item stays exactly as it was
    decided until it is deleted. */
module Lifecycle {
  import opened Wrappers
  import opened Http
  import opened Policy
  import opened QueueItems
  import opened ReviewQueue
  import opened Gate
  import opened ReviewApi

  /** One thing that can happen to the queue. A submission is decided under
      the policy in force when it arrives, which may differ from one
      submission to the next. */
  datatype Action =
    | Submit(policy: Settings, env: Env, service: string, verb: string, upstreamPath: string,
             body: Option<Json>, params: Option<Params>)
    | Approve(id: Id, now: Timestamp, upstream: UpstreamResult)
    | Reject(id: Id, now: Timestamp)
    | Delete(id: Id)

  /** The action is a submission under `id`, the one way a row can appear. */
  predicate Reuses(a: Action, id: Id) {
    a.Submit? && a.env.id == id
  }

  /** A status may stay put, or leave pending; nothing else. */
  predicate Advances(before: Status, after: Status) {
    before == after || before == Pending
  }

  /** Two rows record the same captured call: the same id, instant,
      service, method, path, body, params, caller and endpoint. Only the
      decision fields may differ. */
  predicate SameCall(a: QueueItem, b: QueueItem) {
    && a.id == b.id && a.createdAt == b.createdAt
    && a.service == b.service && a.verb == b.verb && a.upstreamPath == b.upstreamPath
    && a.body == b.body && a.params == b.params
    && a.callerIp == b.callerIp && a.endpoint == b.endpoint
  }

  /** The table after one action. A submission whose id is already taken
      leaves the table alone. */
  function Step(store: Store, a: Action): (s: Store)
    ensures Valid(store) ==> Valid(s)
    ensures forall id :: id in s && !Reuses(a, id) ==> id in store
    ensures forall id :: id in s && id in store ==>
      Advances(store[id].status, s[id].status)
      && (store[id].status != Pending ==> s[id] == store[id])
    ensures forall id :: id in s && id in store ==> SameCall(s[id], store[id])
  {
    match a
    case Submit(policy, env, service, verb, upstreamPath, body, params) =>
      if env.id in store then store
      else CheckGates(policy, store, env, service, verb, upstreamPath, body, params).store
    case Approve(id, now, upstream) => ApproveQueueItem(store, id, now, upstream).store
    case Reject(id, now) => RejectQueueItem(store, id, now).store
    case Delete(id) => DeleteQueueItem(store, id).store
  }

  /** The table after the actions, in order. */
  function Run(store: Store, actions: seq<Action>): Store
    decreases |actions|
  {
    if actions == [] then store
    else Run(Step(store, actions[0]), actions[1..])
  }

  /** Every sequence of actions keeps the table well formed, whatever
      policy each submission meets. */
  lemma {:induction false} RunKeepsValid(store: Store, actions: seq<Action>)
    requires Valid(store)
    ensures Valid(Run(store, actions))
    decreases |actions|
  {
    if actions != [] {
      RunKeepsValid(Step(store, actions[0]), actions[1..]);
    }
  }

  /** A row under an id that no action reuses was there from the start, and
      its status has only moved forward. */
  lemma {:induction false} RunAdvances(store: Store, actions: seq<Action>, id: Id)
    requires forall i :: 0 <= i < |actions| ==> !Reuses(actions[i], id)
    ensures id in Run(store, actions) ==>
      id in store && Advances(store[id].status, Run(store, actions)[id].status)
    decreases |actions|
  {
    if actions != [] {
      var next := Step(store, actions[0]);
      assert !Reuses(actions[0], id);
      RunAdvances(next, actions[1..], id);
    }
  }

  /** A decided item is frozen: as long as its id is not reused, every
      later table either lacks it (it was deleted) or holds it exactly as
      decided. */
  lemma {:induction false} RunKeepsDecided(store: Store, actions: seq<Action>, id: Id)
    requires id in store && store[id].status != Pending
    requires forall i :: 0 <= i < |actions| ==> !Reuses(actions[i], id)
    ensures id in Run(store, actions) ==> Run(store, actions)[id] == store[id]
    decreases |actions|
  {
    if actions != [] {
      var next := Step(store, actions[0]);
      assert !Reuses(actions[0], id);
      if id in next {
        RunKeepsDecided(next, actions[1..], id);
      } else {
        RunGone(next, actions[1..], id);
      }
    }
  }

  /** A deleted id stays gone unless it is reused. */
  lemma {:induction false} RunGone(store: Store, actions: seq<Action>, id: Id)
    requires id !in store
    requires forall i :: 0 <= i < |actions| ==> !Reuses(actions[i], id)
    ensures id !in Run(store, actions)
    decreases |actions|
  {
    if actions != [] {
      assert !Reuses(actions[0], id);
      RunGone(Step(store, actions[0]), actions[1..], id);
    }
  }

  /** The captured call is immutable: as long as its id is not reused, a
      row that is still there records the same call it was queued with. */
  lemma {:induction false} RunKeepsCall(store: Store, actions: seq<Action>, id: Id)
    requires id in store
    requires forall i :: 0 <= i < |actions| ==> !Reuses(actions[i], id)
    ensures id in Run(store, actions) ==> SameCall(Run(store, actions)[id], store[id])
    decreases |actions|
  {
    if actions != [] {
      var next := Step(store, actions[0]);
      assert !Reuses(actions[0], id);
      if id in next {
        RunKeepsCall(next, actions[1..], id);
      } else {
        RunGone(next, actions[1..], id);
      }
    }
  }

  /** Replay after any history: a row still pending after a sequence of
      actions that never reuses its id is approved by replaying exactly the
      call it was queued with. */
  lemma RunThenApproveReplays(store: Store, actions: seq<Action>, id: Id,
                              now: Timestamp, up: UpstreamResult)
    requires id in store
    requires forall i :: 0 <= i < |actions| ==> !Reuses(actions[i], id)
    requires id in Run(store, actions) && Run(store, actions)[id].status == Pending
    ensures ApproveQueueItem(Run(store, actions), id, now, up).sent == Some(ReplayOf(store[id]))
  {
    RunKeepsCall(store, actions, id);
  }
}

=== FILE: policy.dfy ===
/** The policy store: the global dry-run flag and, per service, the set of
    HTTP methods that must go through human approval. Each service's set is
    configured as a comma-separated method list such as "post,put,delete". */
module Policy {
  import opened Wrappers
  import opened Text

  /** What one parsed method looks like: non-blank, no surrounding
      whitespace, upper case, and free of the list separator. */
  predicate IsMethodToken(m: string) {
    m != "" && IsStripped(m) && IsUpper(m) && ',' !in m
  }

  /** The method named by one segment of a configured list. */
  function Normalize(segment: string): string {
    Upper(Strip(segment))
  }

  lemma NormalizeIsToken(segment: string)
    requires ',' !in segment && Strip(segment) != ""
    ensures IsMethodToken(Normalize(segment))
  {
    var t := Strip(segment);
    UpperKeepsStripped(t);
    UpperIdempotent(t);
    StripKeepsAbsent(segment, ',');
    UpperKeepsAbsent(t, ',');
  }

  /** Parses a configured method list: split on commas, strip and upper-case
      every segment, drop the blank ones. */
  function ParseMethods(raw: string): (methods: set<string>)
    ensures raw == "" ==> methods == {}
    ensures forall m :: m in methods ==> IsMethodToken(m)
  {
    if raw == "" then {}
    else
      var parts := Split(raw, ',');
      var methods := set p | p in parts && Strip(p) != "" :: Normalize(p);
      assert forall m :: m in methods ==> IsMethodToken(m) by {
        forall m | m in methods ensures IsMethodToken(m) {
          var p :| p in parts && Strip(p) != "" && Normalize(p) == m;
          NormalizeIsToken(p);
        }
      }
      methods
  }

  /** The methods a list of segments names. */
  function MethodsNamed(segments: seq<string>): set<string> {
    set p | p in segments && Strip(p) != "" :: Normalize(p)
  }

  /** Rendering segments as a comma-separated list and parsing it back gives
      exactly the methods the non-blank segments name. */
  lemma {:induction false} ParseJoin(segments: seq<string>)
    requires |segments| >= 1
    requires forall i :: 0 <= i < |segments| ==> ',' !in segments[i]
    ensures ParseMethods(Join(segments, ',')) == MethodsNamed(segments)
  {
    var raw := Join(segments, ',');
    SplitJoin(segments, ',');
    if raw == "" {
      JoinSplit(raw, ',');
      assert segments == [""];
      assert Strip("") == "";
      assert MethodsNamed(segments) == {};
    }
  }

  lemma ParseIsMethodsNamed(raw: string)
    requires raw != ""
    ensures ParseMethods(raw) == MethodsNamed(Split(raw, ','))
  {
  }

  /** Two segment lists that agree segment by segment on blankness and on
      the method named configure the same methods. */
  lemma MethodsNamedPointwise(a: seq<string>, b: seq<string>)
    requires |a| == |b|
    requires forall i :: 0 <= i < |a| ==> (Strip(a[i]) != "" <==> Strip(b[i]) != "")
    requires forall i :: 0 <= i < |a| ==> Normalize(a[i]) == Normalize(b[i])
    ensures MethodsNamed(a) == MethodsNamed(b)
  {
    forall m | m in MethodsNamed(a) ensures m in MethodsNamed(b) {
      var i :| 0 <= i < |a| && Strip(a[i]) != "" && Normalize(a[i]) == m;
      assert b[i] in b;
    }
    forall m | m in MethodsNamed(b) ensures m in MethodsNamed(a) {
      var i :| 0 <= i < |b| && Strip(b[i]) != "" && Normalize(b[i]) == m;
      assert a[i] in a;
    }
  }

  /** The configured list is case-insensitive: "post" and "POST" configure
      the same method. */
  lemma ParseCaseInsensitive(raw: string)
    ensures ParseMethods(Upper(raw)) == ParseMethods(raw)
  {
    if raw != "" {
      var parts := Split(raw, ',');
      UpperSplitCommute(raw);
      var upParts := Split(Upper(raw), ',');
      forall i | 0 <= i < |parts|
        ensures Strip(upParts[i]) != "" <==> Strip(parts[i]) != ""
        ensures Normalize(upParts[i]) == Normalize(parts[i])
      {
        UpperStripCommute(parts[i]);
        UpperIdempotent(Strip(parts[i]));
      }
      MethodsNamedPointwise(upParts, parts);
      ParseIsMethodsNamed(raw);
      ParseIsMethodsNamed(Upper(raw));
    }
  }

  lemma NormalizePost()
    ensures Normalize("post") == "POST"
  {
    assert TrimLeft("post") == "post";
    assert TrimRight("post") == "post";
    assert Upper("post") == "POST";
  }

  lemma PaddedPost()
    ensures " POST " == [' '] + "POST" + [' '] && IsStripped("POST") && IsUpper("POST")
  {
  }

  lemma NormalizePaddedPost()
    ensures Normalize(" POST ") == "POST"
  {
    PaddedPost();
    StripPadded("POST");
  }

  lemma NormalizePut()
    ensures Normalize("put") == "PUT"
  {
    assert TrimLeft("put") == "put";
    assert TrimRight("put") == "put";
    assert Upper("put") == "PUT";
  }

  lemma NamedPostBlankPut()
    ensures MethodsNamed(["post", "", "put"]) == {"POST", "PUT"}
  {
    NormalizePost();
    NormalizePut();
    assert Strip("") == "";
    assert Strip("post") != "" && Strip("put") != "";
  }

  lemma JoinPostBlankPut()
    ensures Join(["post", "", "put"], ',') == "post,,put"
  {
    var segments := ["post", "", "put"];
    assert Join(segments[2..], ',') == "put";
    assert Join(segments[1..], ',') == ",put";
  }

  /** Blank segments are dropped: "post,,put" configures POST and PUT. */
  lemma ParseDropsBlankSegments()
    ensures ParseMethods("post,,put") == {"POST", "PUT"}
  {
    JoinPostBlankPut();
    ParseJoin(["post", "", "put"]);
    NamedPostBlankPut();
  }

  lemma NamedPost()
    ensures MethodsNamed(["post"]) == {"POST"}
  {
    NormalizePost();
    assert Strip("post") != "";
  }

  lemma NamedPaddedPost()
    ensures MethodsNamed([" POST "]) == {"POST"}
  {
    NormalizePaddedPost();
    assert Strip(" POST ") != "";
  }

  lemma ParseLowerPost()
    ensures ParseMethods("post") == {"POST"}
  {
    ParseJoin(["post"]);
    NamedPost();
  }

  lemma ParsePaddedPost()
    ensures ParseMethods(" POST ") == {"POST"}
  {
    ParseJoin([" POST "]);
    NamedPaddedPost();
  }

  /** Case and surrounding whitespace do not matter: "post" and " POST "
      configure the same set. */
  lemma ParseIgnoresCaseAndPadding()
    ensures ParseMethods("post") == ParseMethods(" POST ") == {"POST"}
  {
    ParseLowerPost();
    ParsePaddedPost();
  }

  /** The six services that have an approval setting. */
  datatype Service = Jira | Bitbucket | Slack | Gmail | Gdrive | Gcalendar {

    /** The name the service goes by in routes, settings and queue items. */
    function Name(): string {
      match this
      case Jira => "jira"
      case Bitbucket => "bitbucket"
      case Slack => "slack"
      case Gmail => "gmail"
      case Gdrive => "gdrive"
      case Gcalendar => "gcalendar"
    }
  }

  lemma ServiceCases(svc: Service)
    ensures svc in {Jira, Bitbucket, Slack, Gmail, Gdrive, Gcalendar}
  {
  }

  /** The service a name stands for, if any. */
  function ServiceNamed(name: string): (r: Option<Service>)
    ensures r.Some? ==> r.value.Name() == name
    ensures r.None? ==> forall svc: Service :: svc.Name() != name
  {
    if name == "jira" then Some(Jira)
    else if name == "bitbucket" then Some(Bitbucket)
    else if name == "slack" then Some(Slack)
    else if name == "gmail" then Some(Gmail)
    else if name == "gdrive" then Some(Gdrive)
    else if name == "gcalendar" then Some(Gcalendar)
    else None
  }

  /** The raw comma-separated approval setting of each service. */
  datatype ApprovalConfig = ApprovalConfig(
    jira: string,
    bitbucket: string,
    slack: string,
    gmail: string,
    gdrive: string,
    gcalendar: string)
  {
    /** The setting named after `svc`. */
    function For(svc: Service): string {
      match svc
      case Jira => jira
      case Bitbucket => bitbucket
      case Slack => slack
      case Gmail => gmail
      case Gdrive => gdrive
      case Gcalendar => gcalendar
    }
  }


  /** The pre-parsed lookup table: every one of the six services, mapped to
      the parse of its own setting. */
  function BuildApprovalGates(c: ApprovalConfig): (gates: map<Service, set<string>>)
    ensures forall svc: Service :: svc in gates
    ensures forall svc: Service :: svc in gates ==> gates[svc] == ParseMethods(c.For(svc))
  {
    var gates := map[
      Jira := ParseMethods(c.jira),
      Bitbucket := ParseMethods(c.bitbucket),
      Slack := ParseMethods(c.slack),
      Gmail := ParseMethods(c.gmail),
      Gdrive := ParseMethods(c.gdrive),
      Gcalendar := ParseMethods(c.gcalendar)];
    assert forall svc: Service :: svc in gates && gates[svc] == ParseMethods(c.For(svc)) by {
      forall svc: Service ensures svc in gates && gates[svc] == ParseMethods(c.For(svc)) {
        ServiceCases(svc);
      }
    }
    gates
  }

  /** A snapshot of the policy every gate decision reads: the dry-run flag,
      the raw approval settings, and the lookup table parsed from them. */
  datatype Settings = Settings(dryRunDeletes: bool, approval: ApprovalConfig, gates: map<Service, set<string>>)

  /** The table is the parse of the raw settings, as loading leaves it. */
  predicate Loaded(s: Settings) {
    s.gates == BuildApprovalGates(s.approval)
  }

  /** Loads settings: keeps the flag and the raw lists, and parses the
      lists into the lookup table once. */
  function Load(dryRunDeletes: bool, approval: ApprovalConfig): (s: Settings)
    ensures Loaded(s)
    ensures s.dryRunDeletes == dryRunDeletes && s.approval == approval
    ensures forall svc: Service :: svc in s.gates && s.gates[svc] == ParseMethods(approval.For(svc))
  {
    Settings(dryRunDeletes, approval, BuildApprovalGates(approval))
  }

  /** The settings as shipped: no dry-run, no approval anywhere. */
  const DefaultSettings := Load(false, ApprovalConfig("", "", "", "", "", ""))

  /** Membership of the HTTP method `verb` in the table entry for `service`;
      a name that is none of the six has the empty entry. The method is
      compared as given, without upper-casing. */
  function RequiresApproval(s: Settings, service: string, verb: string): (r: bool)
    ensures r ==> ServiceNamed(service).Some?
    ensures r && Loaded(s) ==> IsMethodToken(verb)
  {
    match ServiceNamed(service)
    case Some(svc) => svc in s.gates && verb in s.gates[svc]
    case None => false
  }

  lemma NameRoundTrip(svc: Service)
    ensures ServiceNamed(svc.Name()) == Some(svc)
  {
  }

  /** A known service requires approval for exactly the methods its own
      setting lists. */
  lemma RequiresApprovalIff(s: Settings, svc: Service, verb: string)
    requires Loaded(s)
    ensures RequiresApproval(s, svc.Name(), verb) <==> verb in ParseMethods(s.approval.For(svc))
  {
    NameRoundTrip(svc);
  }

  /** With every list empty, as shipped, nothing requires approval. */
  lemma DefaultRequiresNothing(service: string, verb: string)
    ensures !RequiresApproval(DefaultSettings, service, verb)
  {
    assert forall svc: Service :: DefaultSettings.approval.For(svc) == "";
  }
}

=== FILE: queue_item.dfy ===
/** The review queue's record of one gated mutation, and the table of them. */
module QueueItems {
  import opened Wrappers
  import opened Text
  import opened Http

  type Id = string

  /** Instants, ordered as the UTC ISO-8601 strings that store them sort. */
  type Timestamp = int

  /** The three-state lifecycle: pending, then approved or rejected. */
  datatype Status = Pending | Approved | Rejected {

    /** The text stored in the `status` column. */
    function Name(): string {
      match this
      case Pending => "pending"
      case Approved => "approved"
      case Rejected => "rejected"
    }
  }

  /** One row of the queue table. */
  datatype QueueItem = QueueItem(
    id: Id,
    createdAt: Timestamp,
    status: Status,
    decidedAt: Option<Timestamp>,
    service: string,
    verb: string,
    upstreamPath: string,
    body: Option<Json>,
    params: Option<Params>,
    callerIp: Option<string>,
    endpoint: string,
    responseStatus: Option<int>,
    responseBody: Option<string>)

  /** The table, keyed by item id. */
  type Store = map<Id, QueueItem>

  /** What an operation answers together with the table it leaves behind. */
  datatype Transition<T> = Transition(out: T, store: Store)

  /** The values the environment supplies to an enqueue: a fresh id (a
      random UUID), the current instant, and the client's address. */
  datatype Env = Env(id: Id, now: Timestamp, callerIp: Option<string>)

  /** The decision fields agree with the status: a pending item is
      undecided and unexecuted, a rejected one is decided but unexecuted, an
      approved one is decided and carries the upstream status. The stored
      method is upper case. */
  predicate ItemValid(it: QueueItem) {
    && IsUpper(it.verb)
    && match it.status
       case Pending => it.decidedAt.None? && it.responseStatus.None? && it.responseBody.None?
       case Rejected => it.decidedAt.Some? && it.responseStatus.None? && it.responseBody.None?
       case Approved => it.decidedAt.Some? && it.responseStatus.Some?
  }

  /** Every row is filed under its own id. */
  predicate Keyed(store: Store) {
    forall id :: id in store ==> store[id].id == id
  }

  predicate Valid(store: Store) {
    Keyed(store) && forall id :: id in store ==> ItemValid(store[id])
  }

  /** Filing a valid item under its own id keeps the table valid. */
  lemma PutKeepsValid(store: Store, it: QueueItem)
    requires ItemValid(it)
    ensures Valid(store) ==> Valid(store[it.id := it])
  {
  }

  /** `after` differs from `before` at most at `id`. */
  ghost predicate OthersUnchanged(before: Store, after: Store, id: Id) {
    && (forall k :: k != id ==> (k in after <==> k in before))
    && (forall k :: k in before && k != id ==> k in after && after[k] == before[k])
  }
}

=== FILE: review_api.dfy ===
/** The review endpoints: list, fetch, approve, reject and delete queued
    items, with their status codes, including the 502, 504 and 500 answers
    that a transport fault during an approval becomes. */
module ReviewApi {
  import opened Wrappers
  import opened Text
  import opened Http
  import opened Policy
  import opened QueueItems
  import opened ReviewQueue

  /** What a review endpoint answers. */
  datatype Reply =
    | NotFound
    | NotPending(status: Status)
    | Item(item: QueueItem)
    | NullBody
    | Listing(items: seq<QueueItem>, count: int)
    | Deleted
    | InvalidFilter
    | UpstreamUnreachable
    | UpstreamTimeout
    | InternalError
  {
    function StatusCode(): int {
      match this
      case NotFound => 404
      case NotPending(_) => 409
      case InvalidFilter => 422
      case UpstreamUnreachable => 502
      case UpstreamTimeout => 504
      case InternalError => 500
      case _ => 200
    }
  }

  /** The status filter accepts exactly the three stored status names. */
  predicate StatusFilterOk(s: string) {
    s == "pending" || s == "approved" || s == "rejected"
  }

  /** The accepted filters are exactly the names of the statuses. */
  lemma StatusFilterOkIff(s: string)
    ensures StatusFilterOk(s) <==> exists st: Status :: st.Name() == s
  {
    if s == "pending" { assert Pending.Name() == s; }
    if s == "approved" { assert Approved.Name() == s; }
    if s == "rejected" { assert Rejected.Name() == s; }
  }

  /** Lists the queue, newest first, filtered by status and service; a
      status filter that names no status is refused with 422. */
  method ListQueue(store: Store, status: Option<string>, service: Option<string>) returns (r: Reply)
    requires Keyed(store)
    ensures r.InvalidFilter? <==> status.Some? && !StatusFilterOk(status.value)
    ensures r.InvalidFilter? || r.Listing?
    ensures r.Listing? ==>
      && r.count == |r.items|
      && NewestFirst(r.items)
      && DistinctIds(r.items)
      && (forall i :: 0 <= i < |r.items| ==> r.items[i].id in store && store[r.items[i].id] == r.items[i])
      && (forall id :: id in store ==> (store[id] in r.items <==> Matches(store[id], status, service)))
  {
    if status.Some? && !StatusFilterOk(status.value) {
      return InvalidFilter;
    }
    var items := ListItems(store, status, service);
    r := Listing(items, |items|);
  }

  /** Fetches one item, or 404. */
  function GetQueueItem(store: Store, id: Id): (r: Reply)
    ensures r == NotFound <==> id !in store
    ensures id in store ==> r == Item(store[id])
  {
    match GetItem(store, id)
    case None => NotFound
    case Some(it) => Item(it)
  }

  /** An endpoint that may call upstream: the call it made, its answer, and
      the table afterwards. */
  datatype Call = Call(sent: Option<UpstreamRequest>, reply: Reply, store: Store)

  /** The answer a transport fault becomes: the two kinds with a handler
      of their own get 502 and 504; any other escapes as a server error. */
  function FaultReply(fault: Fault): (r: Reply)
    ensures fault.ConnectError? ==> r == UpstreamUnreachable && r.StatusCode() == 502
    ensures fault.Timeout? ==> r == UpstreamTimeout && r.StatusCode() == 504
    ensures fault.OtherTransportError? ==> r == InternalError && r.StatusCode() == 500
  {
    match fault
    case ConnectError => UpstreamUnreachable
    case Timeout => UpstreamTimeout
    case OtherTransportError => InternalError
  }

  /** Approves a pending item by replaying it upstream: 404 for a missing
      item, 409 with the current status for a decided one (no call either
      way), 502, 504 or 500 when the call fails in transport (the item stays
      pending), and the approved item otherwise. The table changes exactly
      when the answer is 200. */
  function ApproveQueueItem(store: Store, id: Id, now: Timestamp, upstream: UpstreamResult): (c: Call)
    ensures id !in store ==> c == Call(None, NotFound, store)
    ensures id in store && store[id].status != Pending ==>
      c == Call(None, NotPending(store[id].status), store)
    ensures id in store && store[id].status == Pending ==>
      && c.sent == Some(ReplayOf(store[id]))
      && (upstream.Failed? ==> c.store == store && c.reply == FaultReply(upstream.fault))
      && (upstream.Responded? ==>
            && c.store == store[id := store[id].(status := Approved, decidedAt := Some(now),
                                                 responseStatus := Some(upstream.statusCode),
                                                 responseBody := upstream.text)]
            && id in c.store
            && c.reply == Item(c.store[id])
            && c.store[id].status == Approved
            && c.store[id].decidedAt == Some(now)
            && c.store[id].responseStatus == Some(upstream.statusCode)
            && c.store[id].responseBody == upstream.text)
    ensures c.store != store <==> c.reply.StatusCode() == 200
    ensures c.store.Keys == store.Keys
    ensures OthersUnchanged(store, c.store, id)
    ensures Valid(store) ==> Valid(c.store)
  {
    match GetItem(store, id)
    case None => Call(None, NotFound, store)
    case Some(it) =>
      if it.status != Pending then Call(None, NotPending(it.status), store)
      else
        var a := ApproveItem(store, id, now, upstream);
        assert a.store != store <==> upstream.Responded? by {
          if upstream.Responded? { assert a.store[id].status != store[id].status; }
        }
        match a.out
        case Failure(fault) => Call(a.sent, FaultReply(fault), a.store)
        case Success(Some(decided)) => Call(a.sent, Item(decided), a.store)
        case Success(None) => Call(a.sent, NullBody, a.store)
  }

  /** Rejects a pending item: 404 for a missing item, 409 with the current
      status for a decided one, the rejected item otherwise. The table
      changes exactly when the answer is 200. */
  function RejectQueueItem(store: Store, id: Id, now: Timestamp): (t: Transition<Reply>)
    ensures id !in store ==> t == Transition(NotFound, store)
    ensures id in store && store[id].status != Pending ==>
      t == Transition(NotPending(store[id].status), store)
    ensures id in store && store[id].status == Pending ==>
      && t.store == store[id := store[id].(status := Rejected, decidedAt := Some(now))]
      && t.out == Item(t.store[id])
    ensures t.store != store <==> t.out.StatusCode() == 200
    ensures Valid(store) ==> Valid(t.store)
  {
    match GetItem(store, id)
    case None => Transition(NotFound, store)
    case Some(it) =>
      if it.status != Pending then Transition(NotPending(it.status), store)
      else
        var r := RejectItem(store, id, now);
        assert r.store[id].status != store[id].status;
        match r.out
        case Some(decided) => Transition(Item(decided), r.store)
        case None => Transition(NullBody, r.store)
  }

  /** Deletes an item in any state: 404 when there is none. */
  function DeleteQueueItem(store: Store, id: Id): (t: Transition<Reply>)
    ensures t.out == Deleted <==> id in store
    ensures t.out == NotFound <==> id !in store
    ensures t.store.Keys == store.Keys - {id}
    ensures OthersUnchanged(store, t.store, id)
    ensures Valid(store) ==> Valid(t.store)
  {
    var d := DeleteItem(store, id);
    Transition(if d.out then Deleted else NotFound, d.store)
  }

  // Properties of sequences of calls.

  /** An item is decided once: approving it again is a 409 that makes no
      upstream call and leaves the recorded decision as it is. */
  lemma ApproveTwiceConflicts(store: Store, id: Id, now1: Timestamp, now2: Timestamp,
                              up1: UpstreamResult, up2: UpstreamResult)
    requires id in store && store[id].status == Pending && up1.Responded?
    ensures var c1 := ApproveQueueItem(store, id, now1, up1);
      ApproveQueueItem(c1.store, id, now2, up2) == Call(None, NotPending(Approved), c1.store)
  {
  }

  /** Rejecting an approved item is a 409 that changes nothing. */
  lemma RejectAfterApproveConflicts(store: Store, id: Id, now1: Timestamp, now2: Timestamp,
                                    up: UpstreamResult)
    requires id in store && store[id].status == Pending && up.Responded?
    ensures var c := ApproveQueueItem(store, id, now1, up);
      RejectQueueItem(c.store, id, now2) == Transition(NotPending(Approved), c.store)
  {
  }

  /** Approving a rejected item is a 409 that makes no upstream call. */
  lemma ApproveAfterRejectConflicts(store: Store, id: Id, now1: Timestamp, now2: Timestamp,
                                    up: UpstreamResult)
    requires id in store && store[id].status == Pending
    ensures var t := RejectQueueItem(store, id, now1);
      ApproveQueueItem(t.store, id, now2, up) == Call(None, NotPending(Rejected), t.store)
  {
  }

  /** A transport fault during approval leaves the item pending, so a later
      approval makes the same call again and can succeed. */
  lemma FaultThenRetry(store: Store, id: Id, now1: Timestamp, now2: Timestamp,
                       fault: Fault, up: UpstreamResult)
    requires id in store && store[id].status == Pending
    ensures var c1 := ApproveQueueItem(store, id, now1, Failed(fault));
      && c1.reply.StatusCode() in {500, 502, 504}
      && c1.store == store
      && ApproveQueueItem(c1.store, id, now2, up).sent == c1.sent
  {
  }

  /** Once deleted, an item is not found, whatever state it was in. */
  lemma DeleteThenGetNotFound(store: Store, id: Id)
    ensures GetQueueItem(DeleteQueueItem(store, id).store, id) == NotFound
    ensures DeleteQueueItem(DeleteQueueItem(store, id).store, id).out == NotFound
  {
  }

  /** A queued mutation can be read back exactly as it was captured. */
  lemma EnqueueThenGet(settings: Settings, store: Store, env: Env,
                       service: string, verb: string, upstreamPath: string,
                       body: Option<Json>, params: Option<Params>, endpoint: string)
    requires env.id !in store
    requires RequiresApproval(settings, service, verb)
    ensures var t := MaybeEnqueue(settings, store, env, service, verb, upstreamPath, body, params, endpoint);
      && t.out == Some(Queued(true, env.id, QueuedMessage(verb), service, upstreamPath))
      && GetQueueItem(t.store, env.id).Item?
      && var it := GetQueueItem(t.store, env.id).item;
      && it.status == Pending && it.service == service && it.verb == Upper(verb)
      && it.upstreamPath == upstreamPath && it.body == body && it.params == params
  {
  }

  /** Replay round trip: approving a queued mutation makes exactly the call
      that was intercepted, with the method upper-cased. */
  lemma EnqueueThenApproveReplays(settings: Settings, store: Store, env: Env,
                                  service: string, verb: string, upstreamPath: string,
                                  body: Option<Json>, params: Option<Params>, endpoint: string,
                                  now: Timestamp, up: UpstreamResult)
    requires env.id !in store
    requires RequiresApproval(settings, service, verb)
    ensures var t := MaybeEnqueue(settings, store, env, service, verb, upstreamPath, body, params, endpoint);
      ApproveQueueItem(t.store, env.id, now, up).sent
        == Some(UpstreamRequest(service, Upper(verb), upstreamPath, body, params))
  {
  }
}

=== FILE: review_queue.dfy ===
/** The review queue's operations as transitions of the table: enqueue a
    gated mutation, list, look up, reject, delete, and approve (which makes
    the deferred upstream call). The clock, the id generator and the
    upstream's answer are inputs. */
module ReviewQueue {
  import opened Wrappers
  import opened Text
  import opened Http
  import opened Policy
  import opened QueueItems

  /** The message of the 202 answer to a queued mutation. */
  function QueuedMessage(verb: string): string {
    Upper(verb) + " requires approval"
  }

  /** A freshly queued item: pending, undecided, unexecuted, with the method
      upper-cased and everything else as captured. */
  function NewItem(
    env: Env, service: string, verb: string, upstreamPath: string,
    body: Option<Json>, params: Option<Params>, endpoint: string): (it: QueueItem)
    ensures ItemValid(it) && it.id == env.id && it.createdAt == env.now
    ensures it.status == Pending && it.decidedAt.None?
    ensures it.responseStatus.None? && it.responseBody.None?
    ensures it.service == service && it.verb == Upper(verb) && it.upstreamPath == upstreamPath
    ensures it.body == body && it.params == params
    ensures it.callerIp == env.callerIp && it.endpoint == endpoint
  {
    UpperIdempotent(verb);
    QueueItem(
      env.id, env.now, Pending, None,
      service, Upper(verb), upstreamPath, body, params, env.callerIp, endpoint,
      None, None)
  }

  /** Records a mutation for review when the policy requires approval for
      the service and method; answers nothing and leaves the table alone
      otherwise. */
  function MaybeEnqueue(
    settings: Settings, store: Store, env: Env,
    service: string, verb: string, upstreamPath: string,
    body: Option<Json>, params: Option<Params>, endpoint: string): (t: Transition<Option<Intercept>>)
    requires env.id !in store
    ensures t.out.None? <==> !RequiresApproval(settings, service, verb)
    ensures t.out.None? ==> t.store == store
    ensures t.out.Some? ==>
      && t.out.value == Queued(true, env.id, QueuedMessage(verb), service, upstreamPath)
      && t.out.value.StatusCode() == 202
    ensures t.out.Some? ==> env.id in t.store && t.store == store[env.id := t.store[env.id]]
    ensures t.out.Some? && env.id in t.store ==>
      && var it := t.store[env.id];
      && it.id == env.id && it.createdAt == env.now
      && it.status == Pending && it.decidedAt.None?
      && it.responseStatus.None? && it.responseBody.None?
      && it.service == service && it.verb == Upper(verb) && it.upstreamPath == upstreamPath
      && it.body == body && it.params == params
      && it.callerIp == env.callerIp && it.endpoint == endpoint
    ensures Valid(store) ==> Valid(t.store)
  {
    if !RequiresApproval(settings, service, verb) then
      Transition(None, store)
    else
      var it := NewItem(env, service, verb, upstreamPath, body, params, endpoint);
      PutKeepsValid(store, it);
      Transition(Some(Queued(true, env.id, QueuedMessage(verb), service, upstreamPath)), store[env.id := it])
  }

  /** The row under `id`, if there is one. */
  function GetItem(store: Store, id: Id): (r: Option<QueueItem>)
    ensures r.Some? <==> id in store
    ensures r.Some? ==> r.value == store[id]
  {
    if id in store then Some(store[id]) else None
  }

  /** A filter argument takes effect only when it is a non-empty string. */
  predicate Active(filter: Option<string>) {
    filter.Some? && filter.value != ""
  }

  /** The item passes every active filter. */
  predicate Matches(it: QueueItem, status: Option<string>, service: Option<string>) {
    && (Active(status) ==> it.status.Name() == status.value)
    && (Active(service) ==> it.service == service.value)
  }

  /** Ordered by creation instant, newest first. */
  predicate NewestFirst(items: seq<QueueItem>) {
    forall i, j :: 0 <= i < j < |items| ==> items[i].createdAt >= items[j].createdAt
  }

  /** Where `x` goes in a newest-first list: after every strictly newer item,
      before the first that is not. */
  function InsertPos(items: seq<QueueItem>, x: QueueItem): (k: nat)
    ensures k <= |items|
    ensures forall i :: 0 <= i < k ==> items[i].createdAt > x.createdAt
    ensures k < |items| ==> items[k].createdAt <= x.createdAt
  {
    if |items| == 0 || items[0].createdAt <= x.createdAt then 0
    else 1 + InsertPos(items[1..], x)
  }

  /** Inserts `x` into a newest-first list, keeping it newest-first. */
  function InsertNewestFirst(items: seq<QueueItem>, x: QueueItem): (r: seq<QueueItem>)
    requires NewestFirst(items)
    ensures NewestFirst(r)
    ensures |r| == |items| + 1
    ensures r == items[..InsertPos(items, x)] + [x] + items[InsertPos(items, x)..]
  {
    var k := InsertPos(items, x);
    var r := items[..k] + [x] + items[k..];
    assert forall i :: k <= i < |items| ==> items[i].createdAt <= x.createdAt by {
      forall i | k <= i < |items| ensures items[i].createdAt <= x.createdAt {
        assert items[i].createdAt <= items[k].createdAt;
      }
    }
    assert forall i :: 0 <= i < |r| ==> r[i] == (if i < k then items[i] else if i == k then x else items[i - 1]);
    r
  }

  /** No id occurs twice. */
  predicate DistinctIds(items: seq<QueueItem>) {
    forall i, j :: 0 <= i < j < |items| ==> items[i].id != items[j].id
  }

  lemma InsertIndex(items: seq<QueueItem>, x: QueueItem)
    requires NewestFirst(items)
    ensures var r, k := InsertNewestFirst(items, x), InsertPos(items, x);
      forall i :: 0 <= i < |r| ==> r[i] == (if i < k then items[i] else if i == k then x else items[i - 1])
  {
  }

  /** Inserting adds `x` and nothing else. */
  lemma InsertMembers(items: seq<QueueItem>, x: QueueItem)
    requires NewestFirst(items)
    ensures forall y :: y in InsertNewestFirst(items, x) <==> y in items || y == x
  {
    var r, k := InsertNewestFirst(items, x), InsertPos(items, x);
    InsertIndex(items, x);
    assert r[k] == x;
    forall y | y in items ensures y in r {
      var i :| 0 <= i < |items| && items[i] == y;
      assert y == (if i < k then r[i] else r[i + 1]);
    }
  }

  /** Inserting an item whose id is new keeps the ids distinct. */
  lemma InsertDistinct(items: seq<QueueItem>, x: QueueItem)
    requires NewestFirst(items) && DistinctIds(items)
    requires forall y :: y in items ==> y.id != x.id
    ensures DistinctIds(InsertNewestFirst(items, x))
  {
    InsertIndex(items, x);
    var r := InsertNewestFirst(items, x);
    forall i, j | 0 <= i < j < |r| ensures r[i].id != r[j].id {
      var k := InsertPos(items, x);
      if i != k && j != k {
        assert r[i] == items[if i < k then i else i - 1];
        assert r[j] == items[if j < k then j else j - 1];
      } else if i == k {
        assert r[j] in items;
      } else {
        assert r[i] in items;
      }
    }
  }

  /** The rows passing every active filter, newest first: the listing of the
      review queue. */
  method ListItems(store: Store, status: Option<string>, service: Option<string>) returns (r: seq<QueueItem>)
    requires Keyed(store)
    ensures NewestFirst(r)
    ensures forall i :: 0 <= i < |r| ==> r[i].id in store && store[r[i].id] == r[i]
    ensures forall id :: id in store ==> (store[id] in r <==> Matches(store[id], status, service))
    ensures DistinctIds(r)
  {
    r := [];
    var todo := store.Keys;
    while todo != {}
      invariant todo <= store.Keys
      invariant NewestFirst(r)
      invariant forall y :: y in r ==> y.id in store && store[y.id] == y && y.id !in todo
      invariant forall id :: id in store && id !in todo ==> (store[id] in r <==> Matches(store[id], status, service))
      invariant DistinctIds(r)
      decreases todo
    {
      var k :| k in todo;
      if Matches(store[k], status, service) {
        InsertMembers(r, store[k]);
        InsertDistinct(r, store[k]);
        r := InsertNewestFirst(r, store[k]);
      } else {
        assert store[k] !in r;
      }
      todo := todo - {k};
    }
    assert forall i :: 0 <= i < |r| ==> r[i] in r;
  }

  /** Rejects a pending item, stamping the decision time; a decided item is
      left as it is. Answers the row as it stands afterwards. */
  function RejectItem(store: Store, id: Id, now: Timestamp): (t: Transition<Option<QueueItem>>)
    ensures t.store.Keys == store.Keys
    ensures OthersUnchanged(store, t.store, id)
    ensures id in store && store[id].status == Pending ==>
      t.store[id] == store[id].(status := Rejected, decidedAt := Some(now))
    ensures id in store && store[id].status != Pending ==> t.store == store
    ensures t.out == GetItem(t.store, id)
    ensures Valid(store) ==> Valid(t.store)
  {
    var s := if id in store && store[id].status == Pending
      then store[id := store[id].(status := Rejected, decidedAt := Some(now))]
      else store;
    Transition(GetItem(s, id), s)
  }

  /** Removes the row under `id`, whatever its state, and tells whether there
      was one. */
  function DeleteItem(store: Store, id: Id): (t: Transition<bool>)
    ensures t.out <==> id in store
    ensures id !in t.store
    ensures t.store.Keys == store.Keys - {id}
    ensures OthersUnchanged(store, t.store, id)
    ensures Valid(store) ==> Valid(t.store)
  {
    Transition(id in store, store - {id})
  }

  /** The upstream call that replays a queued item. */
  function ReplayOf(it: QueueItem): UpstreamRequest {
    UpstreamRequest(it.service, it.verb, it.upstreamPath, it.body, it.params)
  }

  /** What approving did: the upstream call it made, if any, what it
      answers (the row, or the transport fault that escaped), and the table
      afterwards. */
  datatype Approval = Approval(sent: Option<UpstreamRequest>, out: Result<Option<QueueItem>, Fault>, store: Store)

  /** Approves a pending item: makes its one upstream call from the stored
      method, path, body and params, and records the answer's status and text
      with the decision time. A missing or decided item is answered as it is,
      with no call. A transport fault escapes before anything is recorded. */
  function ApproveItem(store: Store, id: Id, now: Timestamp, upstream: UpstreamResult): (a: Approval)
    ensures !(id in store && store[id].status == Pending) ==>
      a.sent.None? && a.store == store && a.out == Success(GetItem(store, id))
    ensures id in store && store[id].status == Pending ==>
      && var it := store[id];
      && a.sent == Some(ReplayOf(it))
      && (upstream.Failed? ==> a.store == store && a.out == Failure(upstream.fault))
      && (upstream.Responded? ==>
            && a.store == store[id := it.(status := Approved, decidedAt := Some(now),
                                          responseStatus := Some(upstream.statusCode),
                                          responseBody := upstream.text)]
            && a.out == Success(Some(a.store[id])))
    ensures a.store.Keys == store.Keys
    ensures OthersUnchanged(store, a.store, id)
    ensures Valid(store) ==> Valid(a.store)
  {
    match GetItem(store, id)
    case None => Approval(None, Success(None), store)
    case Some(it) =>
      if it.status != Pending then Approval(None, Success(Some(it)), store)
      else
        var request := ReplayOf(it);
        match upstream
        case Failed(fault) => Approval(Some(request), Failure(fault), store)
        case Responded(code, text) =>
          var decided := it.(status := Approved, decidedAt := Some(now),
                             responseStatus := Some(code), responseBody := text);
          var s := store[id := decided];
          Approval(Some(request), Success(Some(decided)), s)
  }
}

=== FILE: text.dfy ===
/** The few Python `str` operations the approval policy is parsed with:
    `strip()`, `upper()` and `split(",")`, over strings as `seq<char>`. */
module Text {

  /** Python's `str.isspace()`: the characters `strip()` removes by default. */
  predicate IsSpace(c: char) {
    var n := c as int;
    || (0x09 <= n <= 0x0D)      // \t \n \v \f \r
    || (0x1C <= n <= 0x20)      // file, group, record and unit separators; space
    || n == 0x85 || n == 0xA0 || n == 0x1680
    || (0x2000 <= n <= 0x200A)
    || n == 0x2028 || n == 0x2029 || n == 0x202F || n == 0x205F || n == 0x3000
  }

  /** No whitespace at either end. */
  predicate IsStripped(s: string) {
    s == [] || (!IsSpace(s[0]) && !IsSpace(s[|s| - 1]))
  }

  /** Drops leading whitespace: the result is the suffix of `s` that starts at
      its first non-space character. */
  function TrimLeft(s: string): (r: string)
    ensures |r| <= |s| && r == s[|s| - |r|..]
    ensures forall k :: 0 <= k < |s| - |r| ==> IsSpace(s[k])
    ensures r == [] || !IsSpace(r[0])
  {
    if |s| > 0 && IsSpace(s[0]) then TrimLeft(s[1..]) else s
  }

  /** Drops trailing whitespace: the result is the prefix of `s` that ends at
      its last non-space character. */
  function TrimRight(s: string): (r: string)
    ensures |r| <= |s| && r == s[..|r|]
    ensures forall k :: |r| <= k < |s| ==> IsSpace(s[k])
    ensures r == [] || !IsSpace(r[|r| - 1])
  {
    if |s| > 0 && IsSpace(s[|s| - 1]) then TrimRight(s[..|s| - 1]) else s
  }

  /** `r` is the infix of `s` starting at `i`, and everything outside it is
      whitespace. */
  ghost predicate CutAt(s: string, i: int, r: string) {
    && 0 <= i <= |s| - |r|
    && r == s[i..i + |r|]
    && (forall k :: 0 <= k < i ==> IsSpace(s[k]))
    && (forall k :: i + |r| <= k < |s| ==> IsSpace(s[k]))
  }

  /** Python's `s.strip()`: the infix of `s` without surrounding whitespace,
      everything cut off being whitespace. */
  function Strip(s: string): (r: string)
    ensures IsStripped(r)
    ensures exists i :: CutAt(s, i, r)
  {
    var l := TrimLeft(s);
    var r := TrimRight(l);
    var i := |s| - |l|;
    assert CutAt(s, i, r);
    r
  }

  lemma StripOfStripped(s: string)
    requires IsStripped(s)
    ensures Strip(s) == s
  {
  }

  /** `strip()` is idempotent. */
  lemma StripIdempotent(s: string)
    ensures Strip(Strip(s)) == Strip(s)
  {
    StripOfStripped(Strip(s));
  }

  /** Python's `str.upper()` on one character, for the ASCII letters. */
  function UpperChar(c: char): char {
    if 'a' <= c <= 'z' then (c as int - 32) as char else c
  }

  /** Python's `s.upper()`, for the ASCII letters. */
  function Upper(s: string): (r: string)
    ensures |r| == |s|
    ensures forall k :: 0 <= k < |s| ==> r[k] == UpperChar(s[k])
  {
    seq(|s|, k requires 0 <= k < |s| => UpperChar(s[k]))
  }

  lemma UpperCharSpace(c: char)
    ensures IsSpace(UpperChar(c)) <==> IsSpace(c)
  {
  }

  lemma UpperKeepsStripped(s: string)
    requires IsStripped(s)
    ensures IsStripped(Upper(s))
  {
    if s != [] {
      UpperCharSpace(s[0]);
      UpperCharSpace(s[|s| - 1]);
    }
  }

  /** Upper-casing neither introduces nor removes the character `c` when `c`
      is not a letter. */
  lemma UpperKeepsAbsent(s: string, c: char)
    requires c !in s && !('a' <= c <= 'z') && !('A' <= c <= 'Z')
    ensures c !in Upper(s)
  {
    var u := Upper(s);
    forall k | 0 <= k < |u| ensures u[k] != c {
      assert s[k] in s;
    }
  }

  /** What `strip()` keeps was already in the string. */
  lemma StripKeepsAbsent(s: string, c: char)
    requires c !in s
    ensures c !in Strip(s)
  {
    var t := Strip(s);
    var i :| CutAt(s, i, t);
    forall k | 0 <= k < |t| ensures t[k] != c {
      assert t[k] == s[i + k];
    }
  }

  /** Strips one space from either end of an already stripped string. */
  lemma StripPadded(t: string)
    requires IsStripped(t)
    ensures Strip([' '] + t + [' ']) == t
  {
    var s := [' '] + t + [' '];
    assert s[1..] == t + [' '];
    if t == [] {
      assert TrimLeft(s[1..]) == [];
    } else {
      assert TrimLeft(t + [' ']) == t + [' '];
      assert (t + [' '])[..|t|] == t;
    }
  }

  predicate IsUpper(s: string) {
    Upper(s) == s
  }

  lemma UpperIdempotent(s: string)
    ensures IsUpper(Upper(s))
  {
  }

  /** Upper-casing neither creates nor removes whitespace, so it commutes
      with `strip()`. */
  lemma UpperStripCommute(s: string)
    ensures Strip(Upper(s)) == Upper(Strip(s))
  {
    UpperTrimLeft(s);
    UpperTrimRight(TrimLeft(s));
  }

  lemma {:induction false} UpperTrimLeft(s: string)
    ensures TrimLeft(Upper(s)) == Upper(TrimLeft(s))
    decreases |s|
  {
    if |s| > 0 {
      UpperCharSpace(s[0]);
      if IsSpace(s[0]) {
        assert Upper(s)[1..] == Upper(s[1..]);
        UpperTrimLeft(s[1..]);
      }
    }
  }

  lemma {:induction false} UpperTrimRight(s: string)
    ensures TrimRight(Upper(s)) == Upper(TrimRight(s))
    decreases |s|
  {
    if |s| > 0 {
      UpperCharSpace(s[|s| - 1]);
      if IsSpace(s[|s| - 1]) {
        assert Upper(s)[..|s| - 1] == Upper(s[..|s| - 1]);
        UpperTrimRight(s[..|s| - 1]);
      }
    }
  }

  /** Python's `s.split(sep)` for a one-character separator: always at least
      one part, and no part contains the separator. */
  function Split(s: string, sep: char): (parts: seq<string>)
    ensures |parts| >= 1
    ensures forall i :: 0 <= i < |parts| ==> sep !in parts[i]
    decreases |s|
  {
    if |s| == 0 then [""]
    else
      var rest := Split(s[1..], sep);
      if s[0] == sep then [""] + rest
      else [[s[0]] + rest[0]] + rest[1..]
  }

  /** Python's `sep.join(parts)`. */
  function Join(parts: seq<string>, sep: char): string
    requires |parts| >= 1
  {
    if |parts| == 1 then parts[0] else parts[0] + [sep] + Join(parts[1..], sep)
  }

  lemma JoinCons(p: string, rest: seq<string>, sep: char)
    requires |rest| >= 1
    ensures Join([p] + rest, sep) == p + [sep] + Join(rest, sep)
  {
    assert ([p] + rest)[1..] == rest;
  }

  /** Joining the parts of a split gives back the original string. */
  lemma {:induction false} JoinSplit(s: string, sep: char)
    ensures Join(Split(s, sep), sep) == s
    decreases |s|
  {
    if |s| > 0 {
      var rest := Split(s[1..], sep);
      JoinSplit(s[1..], sep);
      if s[0] == sep {
        JoinCons("", rest, sep);
        assert s == [sep] + s[1..];
      } else if |rest| == 1 {
        assert s == [s[0]] + s[1..];
      } else {
        JoinCons(rest[0], rest[1..], sep);
        assert rest == [rest[0]] + rest[1..];
        JoinCons([s[0]] + rest[0], rest[1..], sep);
        assert s == [s[0]] + s[1..];
      }
    }
  }

  /** A string without the separator prefixed to `t` glues onto the first
      part of `t`'s split. */
  lemma {:induction false} SplitPrefix(a: string, t: string, sep: char)
    requires sep !in a
    ensures Split(a + t, sep) == [a + Split(t, sep)[0]] + Split(t, sep)[1..]
    decreases |a|
  {
    if |a| > 0 {
      assert (a + t)[0] == a[0] && (a + t)[1..] == a[1..] + t;
      assert a[0] != sep && sep !in a[1..];
      SplitPrefix(a[1..], t, sep);
      var rest := Split(a[1..] + t, sep);
      assert Split(a + t, sep) == [[a[0]] + rest[0]] + rest[1..];
      assert rest[0] == a[1..] + Split(t, sep)[0];
      assert rest[1..] == Split(t, sep)[1..];
      assert a == [a[0]] + a[1..];
      assert [a[0]] + rest[0] == a + Split(t, sep)[0];
    } else {
      assert a + t == t && a + Split(t, sep)[0] == Split(t, sep)[0];
      assert Split(t, sep) == [Split(t, sep)[0]] + Split(t, sep)[1..];
    }
  }

  /** Splitting a join of separator-free parts gives back the parts. */
  lemma {:induction false} SplitJoin(parts: seq<string>, sep: char)
    requires |parts| >= 1
    requires forall i :: 0 <= i < |parts| ==> sep !in parts[i]
    ensures Split(Join(parts, sep), sep) == parts
    decreases |parts|
  {
    SplitPrefix(parts[0], [], sep);
    assert parts[0] + [] == parts[0];
    if |parts| > 1 {
      var t := Join(parts[1..], sep);
      SplitJoin(parts[1..], sep);
      assert parts[0] + [sep] + t == parts[0] + ([sep] + t);
      SplitPrefix(parts[0], [sep] + t, sep);
      assert ([sep] + t)[1..] == t;
      assert parts == [parts[0]] + parts[1..];
    }
  }

  /** Upper-casing leaves a comma in place, so it commutes with splitting on
      one. */
  lemma {:induction false} UpperSplitCommute(s: string)
    ensures Split(Upper(s), ',') == seq(|Split(s, ',')|, i requires 0 <= i < |Split(s, ',')| => Upper(Split(s, ',')[i]))
    decreases |s|
  {
    if |s| > 0 {
      assert Upper(s)[1..] == Upper(s[1..]);
      UpperSplitCommute(s[1..]);
      var rest := Split(s[1..], ',');
      if s[0] != ',' {
        assert Upper([s[0]] + rest[0]) == [UpperChar(s[0])] + Upper(rest[0]);
      }
    }
  }
}

=== FILE: wrappers.dfy ===
/** Optional values and results, as used throughout the model for Python's
    `None` and for failures that propagate as exceptions. */
module Wrappers {

  datatype Option<+T> = None | Some(value: T)

  datatype Result<+R, +E> = Success(value: R) | Failure(error: E)
}
